=== FILE: README.md ===
# Reminder app core: clock codec and task manager, in Dafny

This project models the core of a small personal task tracker written in
Python (`structure.py`). The tracker stores *tasks* (descriptions) and
*activities* (a due time and a progress status tied to a task) in two SQLite
tables. The model covers three layers of that file:

- **`Time`**: reads a 12-hour clock text `"H:MM AM|PM"` into hour, minute and
  meridiem, converts it to a minute of the day (`realtime = hours24 * 60 +
  minutes`), and renders a stored minute of the day back as `"h:MM AM|PM"`.
  Module `Time`. The Python string primitives it relies on are in module
  `Text`: `str.split()`, `str.split(":")`, `int(...)` on a field, `str(n)`
  and `f"{n:02d}"`.
- **The status label list** `["NOT STARTED", "IN PROGRESS", "COMPLETED"]`.
  Both read paths index it with Python list indexing. Module `Status`.
- **`TaskManager`**: `create_task`, `read_task`, `read_all_tasks`,
  `update_status` and `delete_task`. Module `Tasks` has the operations;
  module `TaskProperties` has the laws relating them.
  The two tables are an immutable `Store`:
  - the `tasks` rows and the `activities` rows, each in rowid order;
  - the next id each AUTOINCREMENT key will hand out.

  Each SQL statement becomes a lookup, append, map or filter over these
  sequences. Every store call is taken to succeed.

How the model treats the behaviour of the code:

- **No range check on clocks.** `_parse_time` does not bound the hour or the
  minute. A meridiem other than `AM`/`PM` falls through to "hour
  unchanged". So `"25:00 AM"` reads as minute 1500, and because `int`
  accepts a sign, `"-1:00 AM"` reads as minute −60. Nothing rejects either;
  the model follows the code (`Time.EncodeUncheckedHour`,
  `Time.EncodeNegativeHour`).
- **Python failures are values.** `ParseTime` returns `Err(MissingToken)`
  where Python raises `IndexError`, and `Err(NotHourMinute)` where it raises
  `ValueError`. Nothing is written to the store in either case.
- **Status codes are not validated.** `update_status` writes any integer
  that sqlite3 can bind, which is any signed 64-bit value. The model keeps
  this: there is no precondition on the update or on the reads. Label lookup is Python list indexing:
  - codes −3..−1 count from the end, so −1 reads as `"COMPLETED"`;
  - any other code outside 0..2 raises `IndexError`, which becomes
    `Err(StatusOutOfRange)`.

  It is proved that in a valid store whose statuses are all 0..2 neither
  read can fail (`TaskProperties.ReadsSucceed`). It is also proved that an
  update to an existing activity keeps that condition exactly when the new
  code is 0..2 (`TaskProperties.UpdateKeepsStatusesKnown`).
- **`decode` is total.** Python's `//` and `%` with a positive divisor agree
  with Dafny's `/` and `%`, so `Decode` is defined for every integer, as the
  Python is. Its round trip is stated for 0..1439.
- **Join order.** `read_all_tasks` is modelled as walking activities in
  rowid order. A task row is matched by id, and the id is the primary key.

The store invariant `Tasks.Valid` says:

- ids ascend in rowid order and stay below their counters;
- no two task rows share a description;
- every activity names an existing task.

All five operations keep it.

## Model

| member | source | states |
|---|---|---|
| Text.Fields | structure.py:70 | Splitting at separators yields at least one field, and no field contains a separator |
| Text.JoinFields | structure.py:70 | Joining the colon-split fields of a text with `:` gives the text back |
| Text.FieldsJoin | structure.py:70 | Splitting a `:`-join of colon-free parts gives exactly those parts |
| Text.FieldsAround | structure.py:70-71 | Splitting at one separator character splits the text on each side independently |
| Text.Words | structure.py:70-71 | `str.split()` yields only non-empty tokens free of whitespace |
| Text.WordsAround | structure.py:70-71 | The whitespace tokens of `a + ws + b` are those of `a` followed by those of `b` |
| Text.ShowNat | structure.py:88 | `str(n)` is a non-empty digit string without a leading zero whose value is `n` |
| Text.Pad2 | structure.py:88 | `02d` formatting is at least two digits, exactly two below 100, and its value is `n` |
| Text.ParseInt | structure.py:70 | `int` on a field succeeds only on a text that starts with a digit or a sign; a leading digit gives a non-negative value |
| Text.ParseSigned | structure.py:70 | `int("-n")` is −n and `int("+n")` is n |
| Text.ParseShown | structure.py:70 | `int` reads back both `str(n)` and the zero-padded form of `n` |
| Time.ParseTime | structure.py:69-72 | Parsing succeeds exactly when there are at least two whitespace tokens and the first is two integer fields around `:`. The hour and minute are the two integers that first token reads as, and the meridiem is the second token. Blank text raises `IndexError`. With a first token present, a `ValueError` arises exactly when that token is malformed. |
| Time.To24 | structure.py:74-80 | For a hand-written clock the 24-hour hour is 0..23, agrees with the 12-hour hour modulo 12, and is at least 12 exactly for PM. AM with any hour but 12, and an unknown meridiem, leave the hour unchanged, in range or not. |
| Time.Realtime | structure.py:67 | For a minute field in 0..59, dividing the result by 60 gives the 24-hour hour and the remainder gives the minute |
| Time.Encode | structure.py:64-67 | Building a `Time` raises only what parsing raises, and the same error; the 24-hour conversion never raises. For a hand-written clock the value is a minute in 0..1439 that decodes back to that clock. |
| Time.Decode | structure.py:82-88 | For every integer the text is two whitespace tokens: the unpadded hour, `:` and the minute zero-padded to two digits, then the meridiem. Reading it back gives exactly the decoded hour, minute and meridiem. |
| Time.PmIsAmPlusTwelve | structure.py:74-80 | For every hour, in range or not, PM gives twelve more than AM |
| Time.RealtimeShiftsWithMinutes | structure.py:67 | The minute field is added unchecked: moving it by `k` moves the minute of the day by `k` |
| Time.DecodeParts | structure.py:82-87 | Every integer decodes to hour 1..12, minute 0..59 and AM/PM, with PM exactly when the value is at least 720. For 0..1439, converting back gives the value. |
| Time.ClockRoundTrip | structure.py:64-87 | Every clock with hour 1..12, minute 0..59 and AM/PM is a minute in 0..1439, and decoding that minute gives the same clock |
| Time.DecodeRoundTrip | structure.py:64-88 | For every minute 0..1439, reading the text `decode` prints gives back the decoded clock and the same minute |
| Time.TokenWords | structure.py:70-71 | `"H:MM M"` built from whitespace-free parts splits into exactly two whitespace tokens: `"H:MM"` and the meridiem |
| Time.HourMinuteOf | structure.py:70 | Two colon-free fields around one colon give an hour and a minute exactly when both read as integers, and then they are those integers |
| Time.ParseToken | structure.py:69-72 | For fields without whitespace or colons, `"H:MM M"` parses to those integers and that meridiem when both fields are integers, and raises `ValueError` otherwise |
| Time.ParseDigits | structure.py:69-72 | Any digit strings around the colon, leading zeros included, parse as their decimal values |
| Time.ParseRendered | structure.py:69-72 | Reading `"{h}:{m:02d} {sign}"` gives exactly hour `h`, minute `m` and that meridiem |
| Time.EncodeRendered | structure.py:64-80 | A text written as `"{h}:{m:02d} {sign}"` encodes to the minute of the day of that clock |
| Time.ParseIgnoresExtraTokens | structure.py:70-71 | Tokens after the meridiem do not change the parse |
| Time.EncodeMidnight | structure.py:64-80 | `"12:00 AM"` is minute 0 |
| Time.EncodeNoon | structure.py:64-80 | `"12:00 PM"` is minute 720 |
| Time.EncodeMorning | structure.py:64-80 | `"1:05 AM"` is minute 65 |
| Time.EncodeLastMinute | structure.py:64-80 | `"11:59 PM"` is minute 1439 |
| Time.EncodeUncheckedHour | structure.py:64-80 | `"25:00 AM"` is accepted as minute 1500; there is no range check |
| Time.EncodeEvening | structure.py:64-80 | The zero-padded `"09:30 PM"` is minute 1290 |
| Time.EncodeNegativeHour | structure.py:64-80 | `"-1:00 AM"` is accepted as hour −1, minute −60 |
| Time.EncodeMissingMeridiem | structure.py:71 | `"9:00"` raises `IndexError`: the meridiem token is missing |
| Time.EncodeNotAClock | structure.py:70 | `"noon"` raises `ValueError`: it is not two integer fields |
| Time.DecodeMidnight | structure.py:82-88 | Minute 0 prints as `"12:00 AM"` |
| Time.DecodeBeforeNoon | structure.py:82-88 | Minute 719 prints as `"11:59 AM"` |
| Time.DecodeNoon | structure.py:82-88 | Minute 720 prints as `"12:00 PM"` |
| Time.DecodeLastMinute | structure.py:82-88 | Minute 1439 prints as `"11:59 PM"` |
| Status.Label | structure.py:107 | Python indexing of the label list: defined exactly for −3..2, always one of the three labels, and code `k` in 0..2 gives the `k`-th label |
| Status.LabelTable | structure.py:122 | 0, 1 and 2 read as NOT STARTED, IN PROGRESS and COMPLETED; −1 reads as COMPLETED; 3 and −4 raise |
| Status.NegativeStatusWraps | structure.py:107 | A negative code reads the label of the code three higher |
| Status.KnownLabelsDistinct | structure.py:107 | Codes 0..2 with the same label are the same code |
| Tasks.First | structure.py:96-105 | The `SELECT ... WHERE` lookups (task by description, task by id, activity by id): a found row is in the table and satisfies the condition, and nothing is found exactly when no row satisfies it |
| Tasks.AddTaskOnce | structure.py:96-97 | Afterwards a row carries the description. The old rows are kept as a prefix. At most one row is added, and none exactly when the description was already present. A new row takes the next task id, and the counter advances by the number of rows added. |
| Tasks.CreateTask | structure.py:94-99 | A malformed clock raises its parse error and writes nothing. Otherwise the task rows grow by at most one, and not at all exactly when the description existed. Exactly one activity is appended, with the next id, the encoded time, status 0, and the id of a task row carrying the description. The activity counter advances by one and the task counter by the number of task rows added, so ids are handed out consecutively. |
| Tasks.SetStatus | structure.py:167 | Same length; rows with another id are unchanged; rows with this id get exactly the new status |
| Tasks.UpdateStatus | structure.py:166-167 | Task rows and counters are unchanged, and every activity keeps its id, task id and time. Only the status of the row with this id changes, to the given code. |
| Tasks.Without | structure.py:170 | No surviving activity has the deleted id, and the result is no longer than the input |
| Tasks.WithoutMembers | structure.py:170 | An activity survives exactly when it was present and has another id |
| Tasks.DeleteTask | structure.py:169-170 | Task rows and counters are unchanged; the activities are exactly the old ones minus those with this id |
| Tasks.Render | structure.py:104-108 | A view is produced exactly when the status has a label. It carries the task description and that status's own label, and its time text reads back as the stored minute when that is in 0..1439. Otherwise the error names the status. |
| Tasks.ReadTask | structure.py:101-109 | `None` exactly when no activity has this id. A found activity reads as the description of a task row with its task id, its own status label, and a time text that reads back as the stored minute. A status error arises only for an existing activity whose status has no label. A missing task row can only be reported when some activity is not linked. |
| Tasks.InnerJoin | structure.py:112-124 | The joined listing has no more entries than there are activities; it raises only if some activity's status has no label |
| Tasks.ReadAllTasks | structure.py:111-124 | An empty activity table gives an empty list, never `None`; there are never more entries than activities |
| TaskProperties.EmptyStore | structure.py:10-23 | A new database satisfies the store invariant, lists nothing, and reads every id as `None` |
| TaskProperties.CreatePreservesValid | structure.py:94-99 | Creating keeps ids ordered, descriptions unique and every activity linked |
| TaskProperties.AppendActivityPreserves | structure.py:99 | Appending an activity with the next id that names an existing task keeps activity ids ordered and every activity linked |
| TaskProperties.UpdatePreservesValid | structure.py:166-167 | Updating keeps the store invariant |
| TaskProperties.DeletePreservesValid | structure.py:169-170 | Deleting keeps the store invariant; in particular no activity is left naming a missing task |
| TaskProperties.WithoutOrdered | structure.py:170 | Deleting a row keeps activity ids ascending |
| TaskProperties.CreateKeepsOneRowPerDesc | structure.py:96-98 | After a create, exactly one task row carries the description |
| TaskProperties.CreateTwice | structure.py:94-99 | Two creates with the same description leave the task rows as after the first, with one row for the description. The two new activities get consecutive ids and both name that row. |
| TaskProperties.CreateThenRead | structure.py:94-109 | In a valid store, reading the activity a create just appended shows the description, the decoded time and NOT STARTED |
| TaskProperties.SetStatusLookup | structure.py:167 | After an update, looking up another id finds what it found before, and looking up the updated id finds the old row with the new status |
| TaskProperties.UpdateThenRead | structure.py:101-109 | After an update, reading that activity shows its task, its time and the new code's label, or raises when the code has no label |
| TaskProperties.UpdateElsewhere | structure.py:166-167 | An update does not change how any other activity reads |
| TaskProperties.UpdateAbsent | structure.py:166-167 | Updating an absent id changes nothing |
| TaskProperties.WithoutLookup | structure.py:170 | Deleting one id does not change the lookup of any other id |
| TaskProperties.DeleteThenRead | structure.py:169-170 | After a delete that id reads as `None`, and every other id reads as before |
| TaskProperties.DeleteKeepsTask | structure.py:169-170 | After deleting an activity, creating its task's description again adds no task row |
| TaskProperties.InnerJoinLinked | structure.py:112-124 | When every activity is linked, the join succeeds exactly when every status has a label. It then lists each activity once, in order, with its task's rendering. |
| TaskProperties.ReadPathsAgree | structure.py:101-124 | In a valid store the listing covers every activity in rowid order and raises exactly when some status has no label. Each entry shows what `read_task` shows for that id. |
| TaskProperties.ReadsSucceed | structure.py:101-124 | In a valid store whose statuses are all 0..2, neither read raises |
| TaskProperties.CreateKeepsStatusesKnown | structure.py:99 | A create writes status 0, so statuses in 0..2 stay in 0..2 |
| TaskProperties.UpdateKeepsStatusesKnown | structure.py:167 | Updating an existing activity keeps all statuses in 0..2 exactly when the new code is in 0..2 |
| TaskProperties.DeleteKeepsStatusesKnown | structure.py:170 | Deleting keeps all statuses in 0..2 |
| TaskProperties.Lifecycle | structure.py:94-124 | One create in a new store lists a single NOT STARTED entry with id 1. Updating it to 2 lists it as COMPLETED. |

## Left out

- The `Database` class (structure.py:3-61) is not modelled. It holds the sqlite3 connection, cursor, commits and teardown, and prints caught errors; these are calls into a foreign library. The model assumes every statement succeeds. On a failed store call, structure.py:98 would index `None`; that path is not modelled.
- `generate_html_table` (structure.py:126-164) is static HTML templating with no invariant to state.
- The interactive loop and the `tasks.htm` file writing (structure.py:172-200) are console and file I/O. The `.lower()` of descriptions happens there, in the caller, so it is not part of `create_task`.
- `int(...)` on a clock field accepts an optional sign and ASCII digits. It does not model underscores between digits or non-ASCII decimal digits, which Python also accepts. Surrounding whitespace cannot reach it, because the fields come from a whitespace-free token.
- The `time` column is TEXT, written from an int and read back with `int(...)` (structure.py:14, structure.py:83). The model stores the int, since that round trip is the identity.
- AUTOINCREMENT ids are unbounded integers. SQLite's failure at the largest 64-bit rowid is not modelled.
- Tasks.UpdateStatus: status codes outside the signed 64-bit range are not modelled. sqlite3 cannot bind them, so `update_status` writes nothing there, while the model writes the code.
- Tasks.CreateTask: times outside the signed 64-bit range are not modelled. Binding one fails at the activity insert (structure.py:99) after the task row was already inserted (structure.py:97); the model writes both rows.
- SQLite does not promise the row order of the join in `read_all_tasks`. The model fixes one order: activity rowid order.
- There is no concurrency. Python is single-threaded here, and the lookup-then-insert in `create_task` runs without interleaving.

=== FILE: status.dfy ===
/** The status label list both read paths of `TaskManager` index with a
    stored status code, `["NOT STARTED", "IN PROGRESS", "COMPLETED"][status]`. */
module Status {
  import opened Wrappers

  const Labels: seq<string> := ["NOT STARTED", "IN PROGRESS", "COMPLETED"]

  /** A status code the label list was written for. */
  predicate Known(status: int) {
    0 <= status < |Labels|
  }

  /** Python list indexing of the label list: a negative index counts from
      the end, and an index past either end raises `IndexError` (`None` here). */
  function Label(status: int): (r: Option<string>)
    ensures r.Some? <==> -|Labels| <= status < |Labels|
    ensures r.Some? ==> r.value in Labels
    ensures Known(status) ==> r == Some(Labels[status])
  {
    if 0 <= status < |Labels| then Some(Labels[status])
    else if -|Labels| <= status < 0 then Some(Labels[status + |Labels|])
    else None
  }

  /** The table itself, and the two ends of Python's index range. */
  lemma LabelTable()
    ensures Label(0) == Some("NOT STARTED")
    ensures Label(1) == Some("IN PROGRESS")
    ensures Label(2) == Some("COMPLETED")
    ensures Label(-1) == Some("COMPLETED")
    ensures Label(3) == None && Label(-4) == None
  {
  }

  /** A negative code reads the same label as the code `|Labels|` higher. */
  lemma NegativeStatusWraps(status: int)
    requires -|Labels| <= status < 0
    ensures Label(status) == Label(status + |Labels|)
  {
  }

  /** Different known codes never share a label, so a label names its code. */
  lemma KnownLabelsDistinct(a: int, b: int)
    requires Known(a) && Known(b)
    requires Label(a) == Label(b)
    ensures a == b
  {
  }
}

=== FILE: task_properties.dfy ===
/** What `TaskManager`'s operations promise about the two tables and about
    each other: the store invariant is kept, descriptions are deduplicated,
    update and delete touch only the targeted activity, and the two read
    paths agree. */
module TaskProperties {
  import opened Wrappers
  import opened Time
  import opened Status
  import opened Tasks

  /* ---------------- lookups in a store whose ids ascend ---------------- */

  lemma TaskByIdAt(tasks: seq<Task>, k: int)
    requires 0 <= k < |tasks|
    requires forall i, j :: 0 <= i < j < |tasks| ==> tasks[i].id < tasks[j].id
    ensures TaskById(tasks, tasks[k].id) == Some(tasks[k])
  {
  }

  lemma ActivityByIdAt(acts: seq<Activity>, k: int)
    requires 0 <= k < |acts|
    requires forall i, j :: 0 <= i < j < |acts| ==> acts[i].id < acts[j].id
    ensures ActivityById(acts, acts[k].id) == Some(acts[k])
  {
  }

  /** With one row per description, a description found is a description
      held by exactly one row. */
  lemma {:induction false} OneRowPerDesc(tasks: seq<Task>, desc: string)
    requires DescsDistinct(tasks)
    requires TaskByDesc(tasks, desc).Some?
    ensures RowsWithDesc(tasks, desc) == 1
    decreases |tasks|
  {
    if tasks[0].desc == desc {
      NoRowWithDesc(tasks[1..], desc);
    } else {
      OneRowPerDesc(tasks[1..], desc);
    }
  }

  lemma {:induction false} NoRowWithDesc(tasks: seq<Task>, desc: string)
    requires forall k :: 0 <= k < |tasks| ==> tasks[k].desc != desc
    ensures RowsWithDesc(tasks, desc) == 0
    decreases |tasks|
  {
    if tasks != [] {
      NoRowWithDesc(tasks[1..], desc);
    }
  }

  /* ---------------- the store invariant ---------------- */

  lemma EmptyStore(id: int)
    ensures Valid(Empty) && StatusesKnown(Empty.activities)
    ensures ReadAllTasks(Empty) == Ok([])
    ensures ReadTask(Empty, id) == Ok(None)
  {
  }

  /** A task row linked from before stays linked after rows are appended. */
  lemma LinkedGrows(tasks: seq<Task>, more: seq<Task>, acts: seq<Activity>)
    requires Linked(tasks, acts)
    ensures Linked(tasks + more, acts)
  {
    forall i | 0 <= i < |acts| ensures TaskById(tasks + more, acts[i].taskId).Some? {
      var t := TaskById(tasks, acts[i].taskId).value;
      var k :| 0 <= k < |tasks| && tasks[k] == t;
      assert (tasks + more)[k].id == acts[i].taskId;
    }
  }

  /** The lookup-then-insert keeps task ids ordered, descriptions distinct
      and every existing activity linked. */
  lemma AddTaskOncePreserves(st: Store, desc: string)
    requires Valid(st)
    ensures var st1 := AddTaskOnce(st, desc);
      && TaskIdsOrdered(st1.tasks, st1.nextTaskId)
      && DescsDistinct(st1.tasks)
      && Linked(st1.tasks, st.activities)
  {
    if TaskByDesc(st.tasks, desc).None? {
      var t := Task(st.nextTaskId, desc);
      var tasks := st.tasks + [t];
      assert AddTaskOnce(st, desc).tasks == tasks;
      assert forall i :: 0 <= i < |st.tasks| ==> tasks[i] == st.tasks[i];
      assert forall i :: 0 <= i < |st.tasks| ==> tasks[i].desc != desc;
      LinkedGrows(st.tasks, [t], st.activities);
    }
  }

  /** Appending an activity with the next id that names an existing task
      keeps the activity table ordered and linked. */
  lemma AppendActivityPreserves(tasks: seq<Task>, acts: seq<Activity>, next: int, a: Activity)
    requires ActivityIdsOrdered(acts, next) && Linked(tasks, acts)
    requires a.id == next
    requires TaskById(tasks, a.taskId).Some?
    ensures ActivityIdsOrdered(acts + [a], next + 1)
    ensures Linked(tasks, acts + [a])
  {
    var r := acts + [a];
    assert forall i :: 0 <= i < |acts| ==> r[i] == acts[i];
  }

  lemma CreatePreservesValid(st: Store, desc: string, text: string)
    requires Valid(st)
    requires CreateTask(st, desc, text).Ok?
    ensures Valid(CreateTask(st, desc, text).value)
  {
    var r := CreateTask(st, desc, text).value;
    var st1 := AddTaskOnce(st, desc);
    AddTaskOncePreserves(st, desc);
    var n := |st.activities|;
    var a := r.activities[n];
    assert r.activities == st.activities + [a];
    assert r.tasks == st1.tasks;
    var k :| 0 <= k < |r.tasks| && r.tasks[k] == Task(a.taskId, desc);
    assert TaskById(r.tasks, a.taskId).Some?;
    AppendActivityPreserves(r.tasks, st.activities, st.nextActivityId, a);
  }

  lemma UpdatePreservesValid(st: Store, id: int, status: int)
    requires Valid(st)
    ensures Valid(UpdateStatus(st, id, status))
  {
  }

  /** Deleting rows keeps every remaining activity id inside any bounds
      the old ids were in. */
  lemma {:induction false} WithoutBounded(acts: seq<Activity>, id: int, lo: int, hi: int)
    requires forall i :: 0 <= i < |acts| ==> lo < acts[i].id < hi
    ensures forall i :: 0 <= i < |Without(acts, id)| ==> lo < Without(acts, id)[i].id < hi
    decreases |acts|
  {
    if acts != [] {
      WithoutBounded(acts[1..], id, lo, hi);
    }
  }

  /** Deleting rows keeps activity ids ascending. */
  lemma {:induction false} WithoutOrdered(acts: seq<Activity>, id: int, next: int)
    requires ActivityIdsOrdered(acts, next)
    ensures ActivityIdsOrdered(Without(acts, id), next)
    decreases |acts|
  {
    if acts != [] {
      var tail := acts[1..];
      var rest := Without(tail, id);
      assert ActivityIdsOrdered(tail, next);
      WithoutOrdered(tail, id, next);
      if acts[0].id != id {
        WithoutBounded(tail, id, acts[0].id, next);
        var r := [acts[0]] + rest;
        assert Without(acts, id) == r;
        forall i, j | 0 <= i < j < |r| ensures r[i].id < r[j].id {
          assert r[j] == rest[j - 1];
          if i > 0 {
            assert r[i] == rest[i - 1];
          }
        }
      }
    }
  }

  lemma DeletePreservesValid(st: Store, id: int)
    requires Valid(st)
    ensures Valid(DeleteTask(st, id))
  {
    WithoutOrdered(st.activities, id, st.nextActivityId);
    var r := DeleteTask(st, id);
    forall i | 0 <= i < |r.activities| ensures TaskById(r.tasks, r.activities[i].taskId).Some? {
      assert r.activities[i] in st.activities;
    }
  }

  /* ---------------- create_task ---------------- */

  /** However often a description is scheduled, one task row carries it. */
  lemma CreateKeepsOneRowPerDesc(st: Store, desc: string, text: string)
    requires Valid(st)
    requires CreateTask(st, desc, text).Ok?
    ensures RowsWithDesc(CreateTask(st, desc, text).value.tasks, desc) == 1
  {
    CreatePreservesValid(st, desc, text);
    var r := CreateTask(st, desc, text).value;
    assert TaskByDesc(r.tasks, desc).Some?;
    OneRowPerDesc(r.tasks, desc);
  }

  /** In a store whose ids ascend, an activity is found under its id and
      its task id finds the task row it names. */
  lemma FoundAt(st: Store, k: int, t: Task)
    requires Valid(st)
    requires 0 <= k < |st.activities|
    requires t in st.tasks && t.id == st.activities[k].taskId
    ensures ActivityById(st.activities, st.activities[k].id) == Some(st.activities[k])
    ensures TaskById(st.tasks, t.id) == Some(t)
  {
    ActivityByIdAt(st.activities, k);
    var j :| 0 <= j < |st.tasks| && st.tasks[j] == t;
    TaskByIdAt(st.tasks, j);
  }

  /** The activity a create appends is found under its id, and its task id
      finds the row carrying the description. */
  lemma CreatedRows(st: Store, desc: string, text: string)
    requires Valid(st)
    requires Encode(text).Ok?
    ensures
      var r := CreateTask(st, desc, text).value;
      var a := r.activities[|st.activities|];
      && ActivityById(r.activities, st.nextActivityId) == Some(a)
      && TaskById(r.tasks, a.taskId) == Some(Task(a.taskId, desc))
  {
    CreatePreservesValid(st, desc, text);
    var r := CreateTask(st, desc, text).value;
    var a := r.activities[|st.activities|];
    FoundAt(r, |st.activities|, Task(a.taskId, desc));
  }

  /** Reading the activity a create just appended shows the description,
      the decoded time and the first label. */
  lemma CreateThenRead(st: Store, desc: string, text: string)
    requires Valid(st)
    requires Encode(text).Ok?
    ensures ReadTask(CreateTask(st, desc, text).value, st.nextActivityId) ==
              Ok(Some(View(desc, Decode(Encode(text).value), "NOT STARTED")))
  {
    CreatedRows(st, desc, text);
  }

  /** Two rows with the same description are one row. */
  lemma SameDescSameRow(tasks: seq<Task>, s: Task, t: Task)
    requires DescsDistinct(tasks)
    requires s in tasks && t in tasks && s.desc == t.desc
    ensures s == t
  {
  }

  /** Scheduling the same description twice leaves one task row and two
      activities that both name it. */
  lemma CreateTwice(st: Store, desc: string, first: string, second: string)
    requires Valid(st)
    requires Encode(first).Ok? && Encode(second).Ok?
    ensures
      var st1 := CreateTask(st, desc, first).value;
      var st2 := CreateTask(st1, desc, second).value;
      var n := |st.activities|;
      && st2.tasks == st1.tasks
      && RowsWithDesc(st2.tasks, desc) == 1
      && |st2.activities| == n + 2
      && st2.activities[n].id == st.nextActivityId
      && st2.activities[n + 1].id == st.nextActivityId + 1
      && st2.activities[n].taskId == st2.activities[n + 1].taskId
      && TaskById(st2.tasks, st2.activities[n].taskId) == Some(Task(st2.activities[n].taskId, desc))
  {
    var st1 := CreateTask(st, desc, first).value;
    var st2 := CreateTask(st1, desc, second).value;
    var n := |st.activities|;
    CreatePreservesValid(st, desc, first);
    CreatePreservesValid(st1, desc, second);
    CreateKeepsOneRowPerDesc(st1, desc, second);
    var a1 := st1.activities[n];
    assert Task(a1.taskId, desc) in st1.tasks;
    assert TaskByDesc(st1.tasks, desc).Some?;
    assert st2.tasks == st1.tasks;
    assert st2.activities[n] == a1;
    var a2 := st2.activities[n + 1];
    SameDescSameRow(st2.tasks, Task(a1.taskId, desc), Task(a2.taskId, desc));
    var k :| 0 <= k < |st2.tasks| && st2.tasks[k] == Task(a1.taskId, desc);
    TaskByIdAt(st2.tasks, k);
  }

  /* ---------------- update_status ---------------- */

  lemma {:induction false} SetStatusLookup(acts: seq<Activity>, id: int, status: int, other: int)
    ensures ActivityById(SetStatus(acts, id, status), other) ==
      (if other != id then ActivityById(acts, other)
       else match ActivityById(acts, id)
            case None => None
            case Some(a) => Some(a.(status := status)))
    decreases |acts|
  {
    if acts != [] {
      SetStatusLookup(acts[1..], id, status, other);
      assert SetStatus(acts, id, status)[1..] == SetStatus(acts[1..], id, status);
    }
  }

  /** After an update, reading that activity shows the new status label, or
      raises when the written code is outside the label list. */
  lemma UpdateThenRead(st: Store, id: int, status: int)
    requires Valid(st)
    requires ActivityById(st.activities, id).Some?
    ensures
      var a := ActivityById(st.activities, id).value;
      var t := TaskById(st.tasks, a.taskId).value;
      && (Label(status).Some? ==>
            ReadTask(UpdateStatus(st, id, status), id) ==
              Ok(Some(View(t.desc, Decode(a.time), Label(status).value))))
      && (Label(status).None? ==>
            ReadTask(UpdateStatus(st, id, status), id) == Err(StatusOutOfRange(status)))
  {
    SetStatusLookup(st.activities, id, status, id);
    var a := ActivityById(st.activities, id).value;
    var k :| 0 <= k < |st.activities| && st.activities[k] == a;
    assert TaskById(st.tasks, a.taskId).Some?;
  }

  /** An update leaves every other activity's reading as it was. */
  lemma UpdateElsewhere(st: Store, id: int, status: int, other: int)
    requires other != id
    ensures ReadTask(UpdateStatus(st, id, status), other) == ReadTask(st, other)
  {
    SetStatusLookup(st.activities, id, status, other);
  }

  /** Updating an id no activity has changes nothing. */
  lemma UpdateAbsent(st: Store, id: int, status: int)
    requires ActivityById(st.activities, id).None?
    ensures UpdateStatus(st, id, status) == st
  {
  }

  /* ---------------- delete_task ---------------- */

  lemma {:induction false} WithoutLookup(acts: seq<Activity>, id: int, other: int)
    requires other != id
    ensures ActivityById(Without(acts, id), other) == ActivityById(acts, other)
    decreases |acts|
  {
    if acts != [] {
      WithoutLookup(acts[1..], id, other);
    }
  }

  /** After a delete, that activity reads as absent and every other one
      reads as before. */
  lemma DeleteThenRead(st: Store, id: int, other: int)
    ensures ReadTask(DeleteTask(st, id), id) == Ok(None)
    ensures other != id ==> ReadTask(DeleteTask(st, id), other) == ReadTask(st, other)
  {
    if other != id {
      WithoutLookup(st.activities, id, other);
    }
  }

  /** The task row of a deleted activity survives, so scheduling its
      description again adds no task row. */
  lemma DeleteKeepsTask(st: Store, id: int, text: string)
    requires Valid(st)
    requires ActivityById(st.activities, id).Some?
    requires Encode(text).Ok?
    ensures
      var a := ActivityById(st.activities, id).value;
      var desc := TaskById(st.tasks, a.taskId).value.desc;
      CreateTask(DeleteTask(st, id), desc, text).value.tasks == st.tasks
  {
  }

  /* ---------------- the two read paths ---------------- */

  lemma {:induction false} InnerJoinLinked(tasks: seq<Task>, acts: seq<Activity>)
    requires Linked(tasks, acts)
    ensures InnerJoin(tasks, acts).Ok? <==> forall i :: 0 <= i < |acts| ==> Label(acts[i].status).Some?
    ensures InnerJoin(tasks, acts).Ok? ==>
      var ls := InnerJoin(tasks, acts).value;
      && |ls| == |acts|
      && forall i :: 0 <= i < |acts| ==>
           && ls[i].id == acts[i].id
           && Render(TaskById(tasks, acts[i].taskId).value.desc, acts[i]) == Ok(ls[i].view)
    decreases |acts|
  {
    if acts != [] {
      assert Linked(tasks, acts[1..]) by {
        forall i | 0 <= i < |acts[1..]| ensures TaskById(tasks, acts[1..][i].taskId).Some? {
          assert acts[1..][i] == acts[i + 1];
        }
      }
      InnerJoinLinked(tasks, acts[1..]);
      assert TaskById(tasks, acts[0].taskId).Some?;
      if InnerJoin(tasks, acts).Ok? {
        var ls := InnerJoin(tasks, acts).value;
        var rest := InnerJoin(tasks, acts[1..]).value;
        assert ls[1..] == rest;
        forall i | 0 <= i < |acts| ensures Label(acts[i].status).Some? {
          if i > 0 { assert acts[1..][i - 1] == acts[i]; }
        }
        forall i | 0 <= i < |acts|
          ensures ls[i].id == acts[i].id
          ensures Render(TaskById(tasks, acts[i].taskId).value.desc, acts[i]) == Ok(ls[i].view)
        {
          if i > 0 { assert acts[1..][i - 1] == acts[i]; }
        }
      }
    }
  }

  /** In a valid store `read_all_tasks` lists every activity in rowid order,
      raises exactly when some stored status has no label, and shows for
      each activity what `read_task` shows for it. */
  lemma ReadPathsAgree(st: Store)
    requires Valid(st)
    ensures ReadAllTasks(st).Ok? <==>
              forall i :: 0 <= i < |st.activities| ==> Label(st.activities[i].status).Some?
    ensures ReadAllTasks(st).Ok? ==>
      var ls := ReadAllTasks(st).value;
      && |ls| == |st.activities|
      && forall i :: 0 <= i < |ls| ==>
           && ls[i].id == st.activities[i].id
           && ReadTask(st, ls[i].id) == Ok(Some(ls[i].view))
  {
    InnerJoinLinked(st.tasks, st.activities);
    if ReadAllTasks(st).Ok? {
      var ls := ReadAllTasks(st).value;
      forall i | 0 <= i < |ls| ensures ReadTask(st, ls[i].id) == Ok(Some(ls[i].view)) {
        ActivityByIdAt(st.activities, i);
      }
    }
  }

  /** When every stored status is 0, 1 or 2 neither read raises. */
  lemma ReadsSucceed(st: Store, id: int)
    requires Valid(st)
    requires StatusesKnown(st.activities)
    ensures ReadTask(st, id).Ok?
    ensures ReadAllTasks(st).Ok?
  {
  }

  /* ---------------- which writes keep the status codes readable ---------------- */

  lemma CreateKeepsStatusesKnown(st: Store, desc: string, text: string)
    requires StatusesKnown(st.activities)
    requires CreateTask(st, desc, text).Ok?
    ensures StatusesKnown(CreateTask(st, desc, text).value.activities)
  {
  }

  /** An update to an existing activity keeps every status readable exactly
      when the written code is 0, 1 or 2. */
  lemma UpdateKeepsStatusesKnown(st: Store, id: int, status: int)
    requires StatusesKnown(st.activities)
    requires ActivityById(st.activities, id).Some?
    ensures StatusesKnown(UpdateStatus(st, id, status).activities) <==> Known(status)
  {
  }

  lemma DeleteKeepsStatusesKnown(st: Store, id: int)
    requires StatusesKnown(st.activities)
    ensures StatusesKnown(DeleteTask(st, id).activities)
  {
  }

  /* ---------------- a whole lifecycle ---------------- */

  /** A one-row join shows that row. */
  lemma InnerJoinOne(tasks: seq<Task>, a: Activity)
    requires TaskById(tasks, a.taskId).Some?
    requires Label(a.status).Some?
    ensures InnerJoin(tasks, [a]) ==
      Ok([Listing(a.id, View(TaskById(tasks, a.taskId).value.desc, Decode(a.time), Label(a.status).value))])
  {
    var t := TaskById(tasks, a.taskId).value;
    assert [a][1..] == [];
    assert InnerJoin(tasks, []) == Ok([]);
    var v := View(t.desc, Decode(a.time), Label(a.status).value);
    assert InnerJoin(tasks, [a]) == Ok([Listing(a.id, v)] + []);
    assert [Listing(a.id, v)] + [] == [Listing(a.id, v)];
  }

  /** Scheduling one task in a new store lists it as not started; updating
      it to 2 lists it as completed. */
  lemma Lifecycle(desc: string, text: string)
    requires Encode(text).Ok?
    ensures
      var st1 := CreateTask(Empty, desc, text).value;
      var time := Decode(Encode(text).value);
      && ReadAllTasks(st1) == Ok([Listing(1, View(desc, time, "NOT STARTED"))])
      && ReadAllTasks(UpdateStatus(st1, 1, 2)) == Ok([Listing(1, View(desc, time, "COMPLETED"))])
  {
    var t := Encode(text).value;
    var st1 := CreateTask(Empty, desc, text).value;
    assert st1.tasks == [Task(1, desc)];
    assert st1.activities == [Activity(1, 1, t, 0)];
    assert TaskById(st1.tasks, 1) == Some(Task(1, desc));
    InnerJoinOne(st1.tasks, Activity(1, 1, t, 0));
    var st2 := UpdateStatus(st1, 1, 2);
    assert st2.activities == [Activity(1, 1, t, 2)];
    InnerJoinOne(st2.tasks, Activity(1, 1, t, 2));
  }
}

=== FILE: tasks.dfy ===
/** `TaskManager` over an abstract picture of its two SQLite tables,
    `tasks(id, desc)` and `activities(id, task_id, time, status)`. Rows are
    kept in rowid order and each table carries its AUTOINCREMENT counter;
    every SQL statement the manager issues becomes a lookup, filter, map or
    append over those sequences, and every store call succeeds. */
module Tasks {
  import opened Wrappers
  import opened Time
  import opened Status

  datatype Task = Task(id: int, desc: string)

  /** `time` is the minute of the day `create_task` stored (the TEXT column
      read back with `int`), `status` the code last written. */
  datatype Activity = Activity(id: int, taskId: int, time: int, status: int)

  /** Both tables, with the next id each AUTOINCREMENT key hands out. */
  datatype Store = Store(tasks: seq<Task>, activities: seq<Activity>,
                         nextTaskId: int, nextActivityId: int)

  /** One dictionary of a read: `{"task", "time", "status"}`. */
  datatype View = View(task: string, time: string, status: string)

  /** One dictionary of `read_all_tasks`, which also carries the activity id. */
  datatype Listing = Listing(id: int, view: View)

  /** What a read raises: indexing `None` when the owning task row is gone,
      `IndexError` when the status code is outside the label list. */
  datatype ReadError = MissingTask(taskId: int) | StatusOutOfRange(status: int)

  /** A freshly created database file. */
  const Empty: Store := Store([], [], 1, 1)

  /* ---------------- lookups: `SELECT ... WHERE col = ?` + `fetchone` ---------------- */

  /** The first row satisfying `p`, in rowid order: what `fetchone` returns
      for a `SELECT ... WHERE` on one table. */
  function First<T>(rows: seq<T>, p: T -> bool): (r: Option<T>)
    ensures r.Some? ==> r.value in rows && p(r.value)
    ensures r.None? <==> forall k :: 0 <= k < |rows| ==> !p(rows[k])
    decreases |rows|
  {
    if rows == [] then None
    else if p(rows[0]) then Some(rows[0])
    else First(rows[1..], p)
  }

  /** `SELECT ... FROM tasks WHERE id = ?`. */
  function TaskById(tasks: seq<Task>, id: int): Option<Task> {
    First(tasks, (t: Task) => t.id == id)
  }

  /** `SELECT ... FROM tasks WHERE desc = ?`. */
  function TaskByDesc(tasks: seq<Task>, desc: string): Option<Task> {
    First(tasks, (t: Task) => t.desc == desc)
  }

  /** `SELECT * FROM activities WHERE id = ?`. */
  function ActivityById(acts: seq<Activity>, id: int): Option<Activity> {
    First(acts, (a: Activity) => a.id == id)
  }

  /* ---------------- what the store keeps true ---------------- */

  /** Task ids ascend in rowid order and lie below the AUTOINCREMENT counter. */
  predicate TaskIdsOrdered(tasks: seq<Task>, next: int) {
    && next >= 1
    && (forall i, j :: 0 <= i < j < |tasks| ==> tasks[i].id < tasks[j].id)
    && (forall i :: 0 <= i < |tasks| ==> 1 <= tasks[i].id < next)
  }

  predicate ActivityIdsOrdered(acts: seq<Activity>, next: int) {
    && next >= 1
    && (forall i, j :: 0 <= i < j < |acts| ==> acts[i].id < acts[j].id)
    && (forall i :: 0 <= i < |acts| ==> 1 <= acts[i].id < next)
  }

  /** One task row per description. */
  predicate DescsDistinct(tasks: seq<Task>) {
    forall i, j :: 0 <= i < j < |tasks| ==> tasks[i].desc != tasks[j].desc
  }

  /** Every activity names an existing task. */
  predicate Linked(tasks: seq<Task>, acts: seq<Activity>) {
    forall i :: 0 <= i < |acts| ==> TaskById(tasks, acts[i].taskId).Some?
  }

  predicate Valid(st: Store) {
    && TaskIdsOrdered(st.tasks, st.nextTaskId)
    && ActivityIdsOrdered(st.activities, st.nextActivityId)
    && DescsDistinct(st.tasks)
    && Linked(st.tasks, st.activities)
  }

  /** Every stored status is one the label list was written for. */
  predicate StatusesKnown(acts: seq<Activity>) {
    forall i :: 0 <= i < |acts| ==> Known(acts[i].status)
  }

  /** The number of task rows carrying `desc`. */
  function RowsWithDesc(tasks: seq<Task>, desc: string): nat
    decreases |tasks|
  {
    if tasks == [] then 0
    else (if tasks[0].desc == desc then 1 else 0) + RowsWithDesc(tasks[1..], desc)
  }

  /* ---------------- operations ---------------- */

  /** The lookup-then-insert of `create_task`: a task row is added only when
      no row has exactly this description. */
  function AddTaskOnce(st: Store, desc: string): (r: Store)
    ensures TaskByDesc(r.tasks, desc).Some?
    ensures st.tasks <= r.tasks && |r.tasks| <= |st.tasks| + 1
    ensures |r.tasks| == |st.tasks| <==> TaskByDesc(st.tasks, desc).Some?
    ensures |r.tasks| > |st.tasks| ==> r.tasks[|st.tasks|] == Task(st.nextTaskId, desc)
    ensures r.nextTaskId == st.nextTaskId + (|r.tasks| - |st.tasks|)
    ensures r.activities == st.activities && r.nextActivityId == st.nextActivityId
  {
    if TaskByDesc(st.tasks, desc).Some? then st
    else
      var tasks := st.tasks + [Task(st.nextTaskId, desc)];
      assert tasks[|st.tasks|].desc == desc;
      st.(tasks := tasks, nextTaskId := st.nextTaskId + 1)
  }

  /** `create_task(desc, text)`: read the clock first (a malformed clock
      raises and nothing is written), make sure a task row carries `desc`,
      re-read that row's id, and append an activity with status 0. */
  function CreateTask(st: Store, desc: string, text: string): (r: Result<Store, TimeError>)
    ensures r.Err? <==> Encode(text).Err?
    ensures r.Err? ==> r.error == Encode(text).error
    ensures r.Ok? ==> st.tasks <= r.value.tasks && |r.value.tasks| <= |st.tasks| + 1
    ensures r.Ok? ==> (|r.value.tasks| == |st.tasks| <==> TaskByDesc(st.tasks, desc).Some?)
    ensures r.Ok? ==>
      && |r.value.activities| == |st.activities| + 1
      && r.value.activities[..|st.activities|] == st.activities
      && var a := r.value.activities[|st.activities|];
         && a.id == st.nextActivityId
         && a.time == Encode(text).value
         && a.status == 0
         && Task(a.taskId, desc) in r.value.tasks
    ensures r.Ok? ==> r.value.nextActivityId == st.nextActivityId + 1
    ensures r.Ok? ==> r.value.nextTaskId == st.nextTaskId + (|r.value.tasks| - |st.tasks|)
  {
    match Encode(text)
    case Err(e) => Err(e)
    case Ok(time) =>
      var st1 := AddTaskOnce(st, desc);
      var owner := TaskByDesc(st1.tasks, desc).value;
      var a := Activity(st1.nextActivityId, owner.id, time, 0);
      var acts := st1.activities + [a];
      assert acts[..|st.activities|] == st.activities;
      Ok(st1.(activities := acts, nextActivityId := st1.nextActivityId + 1))
  }

  /** `UPDATE activities SET status = ? WHERE id = ?` over the rows. */
  function SetStatus(acts: seq<Activity>, id: int, status: int): (r: seq<Activity>)
    ensures |r| == |acts|
    ensures forall i :: 0 <= i < |acts| && acts[i].id != id ==> r[i] == acts[i]
    ensures forall i :: 0 <= i < |acts| && acts[i].id == id ==> r[i] == acts[i].(status := status)
    decreases |acts|
  {
    if acts == [] then []
    else
      var rest := SetStatus(acts[1..], id, status);
      [if acts[0].id == id then acts[0].(status := status) else acts[0]] + rest
  }

  /** `update_status`: the status column of the row with this id is
      overwritten with whatever integer is given; an absent id changes nothing. */
  function UpdateStatus(st: Store, id: int, status: int): (r: Store)
    ensures r.tasks == st.tasks
    ensures r.nextTaskId == st.nextTaskId && r.nextActivityId == st.nextActivityId
    ensures |r.activities| == |st.activities|
    ensures forall i :: 0 <= i < |st.activities| ==>
              && r.activities[i].id == st.activities[i].id
              && r.activities[i].taskId == st.activities[i].taskId
              && r.activities[i].time == st.activities[i].time
    ensures forall i :: 0 <= i < |st.activities| ==>
              r.activities[i].status ==
                (if st.activities[i].id == id then status else st.activities[i].status)
  {
    st.(activities := SetStatus(st.activities, id, status))
  }

  /** `DELETE FROM activities WHERE id = ?` over the rows, order kept. */
  function Without(acts: seq<Activity>, id: int): (r: seq<Activity>)
    ensures |r| <= |acts|
    ensures forall i :: 0 <= i < |r| ==> r[i].id != id
    decreases |acts|
  {
    if acts == [] then []
    else if acts[0].id == id then Without(acts[1..], id)
    else [acts[0]] + Without(acts[1..], id)
  }

  /** The rows that survive a delete are exactly the rows with another id. */
  lemma {:induction false} WithoutMembers(acts: seq<Activity>, id: int)
    ensures forall a :: a in Without(acts, id) <==> a in acts && a.id != id
    decreases |acts|
  {
    if acts != [] {
      WithoutMembers(acts[1..], id);
      assert acts == [acts[0]] + acts[1..];
    }
  }

  /** `delete_task`: removes the activity with this id; task rows are never
      removed, even when no activity refers to them any more. */
  function DeleteTask(st: Store, id: int): (r: Store)
    ensures r.tasks == st.tasks
    ensures r.nextTaskId == st.nextTaskId && r.nextActivityId == st.nextActivityId
    ensures forall a :: a in r.activities <==> a in st.activities && a.id != id
  {
    WithoutMembers(st.activities, id);
    st.(activities := Without(st.activities, id))
  }

  /** The dictionary both read paths build for an activity whose task row
      has description `desc`: the decoded time and the status label. */
  function Render(desc: string, a: Activity): (r: Result<View, ReadError>)
    ensures r.Ok? <==> Label(a.status).Some?
    ensures r.Ok? ==> r.value.task == desc && Label(a.status) == Some(r.value.status)
    ensures r.Ok? && 0 <= a.time < 1440 ==> Encode(r.value.time) == Ok(a.time)
    ensures r.Err? ==> r.error == StatusOutOfRange(a.status)
  {
    match Label(a.status)
    case None => Err(StatusOutOfRange(a.status))
    case Some(name) => Ok(View(desc, Decode(a.time), name))
  }

  /** `read_task(id)`: `None` when no activity has this id; otherwise the
      owning task's description, the decoded time and the status label. */
  function ReadTask(st: Store, id: int): (r: Result<Option<View>, ReadError>)
    ensures r == Ok(None) <==> ActivityById(st.activities, id).None?
    ensures r.Ok? && r.value.Some? ==>
      var a := ActivityById(st.activities, id).value;
      && Task(a.taskId, r.value.value.task) in st.tasks
      && Label(a.status) == Some(r.value.value.status)
      && (0 <= a.time < 1440 ==> Encode(r.value.value.time) == Ok(a.time))
    ensures r.Err? && r.error.MissingTask? ==> !Linked(st.tasks, st.activities)
    ensures r.Err? && r.error.StatusOutOfRange? ==>
      && ActivityById(st.activities, id).Some?
      && Label(ActivityById(st.activities, id).value.status).None?
  {
    match ActivityById(st.activities, id)
    case None => Ok(None)
    case Some(a) =>
      match TaskById(st.tasks, a.taskId)
      case None => Err(MissingTask(a.taskId))
      case Some(t) =>
        match Render(t.desc, a)
        case Err(e) => Err(e)
        case Ok(v) => Ok(Some(v))
  }

  /** The inner join of `read_all_tasks`, walked in activity rowid order:
      activities without a task row are dropped, and the first row whose
      status is outside the label list raises. */
  function InnerJoin(tasks: seq<Task>, acts: seq<Activity>): (r: Result<seq<Listing>, ReadError>)
    ensures r.Ok? ==> |r.value| <= |acts|
    ensures r.Err? ==> exists i :: 0 <= i < |acts| && Label(acts[i].status).None?
    decreases |acts|
  {
    if acts == [] then Ok([])
    else
      var a := acts[0];
      match TaskById(tasks, a.taskId)
      case None => InnerJoin(tasks, acts[1..])
      case Some(t) =>
        match Render(t.desc, a)
        case Err(e) => Err(e)
        case Ok(v) =>
          match InnerJoin(tasks, acts[1..])
          case Err(e) => Err(e)
          case Ok(rest) => Ok([Listing(a.id, v)] + rest)
  }

  /** `read_all_tasks`: an empty list, never `None`, when nothing joins. */
  function ReadAllTasks(st: Store): (r: Result<seq<Listing>, ReadError>)
    ensures st.activities == [] ==> r == Ok([])
    ensures r.Ok? ==> |r.value| <= |st.activities|
  {
    InnerJoin(st.tasks, st.activities)
  }
}

=== FILE: text.dfy ===
/** The few pieces of Python's string handling that the clock parser and
    formatter rely on: `str.split()`, `str.split(sep)`, `int(...)` on a
    field, `str(n)` and the `02d` format of a non-negative integer. */
module Text {
  import opened Wrappers

  /** The characters for which Python's `str.isspace` holds; `str.split()`
      with no argument breaks a string at runs of these. */
  const Whitespace: set<char> := {
    '\t', '\n', '\U{B}', '\U{C}', '\r', '\U{1C}', '\U{1D}', '\U{1E}', '\U{1F}',
    ' ', '\U{85}', '\U{A0}', '\U{1680}',
    '\U{2000}', '\U{2001}', '\U{2002}', '\U{2003}', '\U{2004}', '\U{2005}',
    '\U{2006}', '\U{2007}', '\U{2008}', '\U{2009}', '\U{200A}',
    '\U{2028}', '\U{2029}', '\U{202F}', '\U{205F}', '\U{3000}'
  }

  /** No character of `s` is one of `seps`. */
  predicate Free(s: string, seps: set<char>) {
    forall k :: 0 <= k < |s| ==> s[k] !in seps
  }

  /** The fields of `s` between separator characters, empty fields kept:
      with a single separator this is Python's `s.split(sep)`. */
  function Fields(s: string, seps: set<char>): (r: seq<string>)
    ensures |r| >= 1
    ensures forall i :: 0 <= i < |r| ==> Free(r[i], seps)
    decreases |s|
  {
    if s == [] then [[]]
    else
      var rest := Fields(s[1..], seps);
      if s[0] in seps then [[]] + rest
      else [[s[0]] + rest[0]] + rest[1..]
  }

  /** Python's `sep.join(parts)` for a one-character separator. */
  function Join(parts: seq<string>, sep: char): string
    requires |parts| >= 1
    decreases |parts|
  {
    if |parts| == 1 then parts[0] else parts[0] + [sep] + Join(parts[1..], sep)
  }

  /** A string without separators is a single field. */
  lemma {:induction false} FieldsOfFree(s: string, seps: set<char>)
    requires Free(s, seps)
    ensures Fields(s, seps) == [s]
    decreases |s|
  {
    if s != [] {
      FieldsOfFree(s[1..], seps);
      assert [s[0]] + s[1..] == s;
    }
  }

  /** Splitting at one separator character splits the two sides independently. */
  lemma {:induction false} FieldsAround(a: string, c: char, b: string, seps: set<char>)
    requires c in seps
    ensures Fields(a + [c] + b, seps) == Fields(a, seps) + Fields(b, seps)
    decreases |a|
  {
    var s := a + [c] + b;
    if a == [] {
      assert s[1..] == b;
    } else {
      assert s[1..] == a[1..] + [c] + b;
      FieldsAround(a[1..], c, b, seps);
    }
  }

  /** Joining the fields of `s` with their separator gives `s` back. */
  lemma {:induction false} JoinFields(s: string, sep: char)
    ensures Join(Fields(s, {sep}), sep) == s
    decreases |s|
  {
    if s != [] {
      var rest := Fields(s[1..], {sep});
      JoinFields(s[1..], sep);
      if s[0] == sep {
        assert Fields(s, {sep})[1..] == rest;
        assert [s[0]] + s[1..] == s;
      } else {
        var r := Fields(s, {sep});
        assert r[0] == [s[0]] + rest[0];
        if |rest| == 1 {
          assert [s[0]] + s[1..] == s;
        } else {
          assert r[1..] == rest[1..];
          assert Join(rest, sep) == rest[0] + [sep] + Join(rest[1..], sep);
          assert [s[0]] + s[1..] == s;
        }
      }
    }
  }

  /** Splitting a join of separator-free parts gives the parts back. */
  lemma {:induction false} FieldsJoin(parts: seq<string>, sep: char)
    requires |parts| >= 1
    requires forall i :: 0 <= i < |parts| ==> Free(parts[i], {sep})
    ensures Fields(Join(parts, sep), {sep}) == parts
    decreases |parts|
  {
    FieldsOfFree(parts[0], {sep});
    if |parts| > 1 {
      FieldsJoin(parts[1..], sep);
      FieldsAround(parts[0], sep, Join(parts[1..], sep), {sep});
      assert [parts[0]] + parts[1..] == parts;
    }
  }

  /** The non-empty strings of `xs`, in order. */
  function NonEmpty(xs: seq<string>): (r: seq<string>)
    ensures forall i :: 0 <= i < |r| ==> r[i] != [] && r[i] in xs
    ensures forall w :: w in xs && w != [] ==> w in r
    decreases |xs|
  {
    if xs == [] then []
    else if xs[0] == [] then NonEmpty(xs[1..])
    else [xs[0]] + NonEmpty(xs[1..])
  }

  lemma {:induction false} NonEmptyConcat(a: seq<string>, b: seq<string>)
    ensures NonEmpty(a + b) == NonEmpty(a) + NonEmpty(b)
    decreases |a|
  {
    if a == [] {
      assert a + b == b;
    } else {
      assert (a + b)[1..] == a[1..] + b;
      NonEmptyConcat(a[1..], b);
    }
  }

  /** Python's `s.split()`: the maximal runs of non-whitespace characters. */
  function Words(s: string): (r: seq<string>)
    ensures forall i :: 0 <= i < |r| ==> r[i] != [] && Free(r[i], Whitespace)
  {
    var fields := Fields(s, Whitespace);
    var r := NonEmpty(fields);
    assert forall i :: 0 <= i < |r| ==> Free(r[i], Whitespace) by {
      forall i | 0 <= i < |r| ensures Free(r[i], Whitespace) {
        var k :| 0 <= k < |fields| && fields[k] == r[i];
      }
    }
    r
  }

  /** Words on both sides of a whitespace character are the words of the whole. */
  lemma WordsAround(a: string, c: char, b: string)
    requires c in Whitespace
    ensures Words(a + [c] + b) == Words(a) + Words(b)
  {
    FieldsAround(a, c, b, Whitespace);
    NonEmptyConcat(Fields(a, Whitespace), Fields(b, Whitespace));
  }

  /** A non-empty string without whitespace is exactly one word. */
  lemma WordsOfWord(s: string)
    requires s != [] && Free(s, Whitespace)
    ensures Words(s) == [s]
  {
    FieldsOfFree(s, Whitespace);
    assert [s][1..] == [];
    assert NonEmpty([s]) == [s] + NonEmpty([]);
  }

  predicate IsDigit(c: char) {
    '0' <= c <= '9'
  }

  predicate IsDigits(s: string) {
    forall k :: 0 <= k < |s| ==> IsDigit(s[k])
  }

  /** Digits are neither whitespace nor a colon. */
  lemma DigitsFree(s: string)
    requires IsDigits(s)
    ensures Free(s, Whitespace) && Free(s, {':'})
  {
  }

  /** A minus sign followed by digits is neither whitespace nor a colon. */
  lemma SignedFree(s: string)
    requires IsDigits(s)
    ensures Free(['-'] + s, Whitespace) && Free(['-'] + s, {':'})
  {
    var r := ['-'] + s;
    forall k | 1 <= k < |r| ensures IsDigit(r[k]) {
      assert r[k] == s[k - 1];
    }
  }

  /** The value of a string of decimal digits, leading zeros allowed. */
  function DigitsValue(s: string): nat
    requires IsDigits(s)
    decreases |s|
  {
    if s == [] then 0
    else DigitsValue(s[..|s| - 1]) * 10 + (s[|s| - 1] as int - '0' as int)
  }

  /** Python's `int(field)` for a base-10 field: an optional sign followed by
      at least one decimal digit; anything else raises `ValueError`. */
  function ParseInt(s: string): (r: Option<int>)
    ensures r.Some? ==> |s| >= 1 && (IsDigit(s[0]) || s[0] == '+' || s[0] == '-')
    ensures r.Some? && IsDigit(s[0]) ==> r.value >= 0
  {
    if |s| >= 2 && (s[0] == '+' || s[0] == '-') && IsDigits(s[1..]) then
      var v: int := DigitsValue(s[1..]);
      Some(if s[0] == '-' then -v else v)
    else if |s| >= 1 && IsDigits(s) then Some(DigitsValue(s))
    else None
  }

  /** `ParseInt`'s two branches as facts about a given field, for callers
      that need the value of a digit or signed field. */
  lemma ParseIntCases(s: string)
    ensures ParseInt(s).Some? <==>
              || (|s| >= 1 && IsDigits(s))
              || (|s| >= 2 && (s[0] == '+' || s[0] == '-') && IsDigits(s[1..]))
    ensures ParseInt(s).Some? && IsDigits(s) ==> ParseInt(s).value == DigitsValue(s)
    ensures ParseInt(s).Some? && s[0] == '+' ==> ParseInt(s).value == DigitsValue(s[1..])
    ensures ParseInt(s).Some? && s[0] == '-' ==> ParseInt(s).value == -(DigitsValue(s[1..]) as int)
  {
  }

  function DigitChar(d: nat): (c: char)
    requires d < 10
    ensures IsDigit(c) && c as int - '0' as int == d
  {
    (d + '0' as int) as char
  }

  /** Python's `str(n)` for a non-negative integer: its decimal digits,
      without leading zeros. */
  function ShowNat(n: nat): (r: string)
    ensures |r| >= 1 && IsDigits(r)
    ensures DigitsValue(r) == n
    ensures r[0] != '0' || n == 0
    ensures n < 10 ==> |r| == 1
    ensures n < 100 ==> |r| <= 2
    decreases n
  {
    if n < 10 then [DigitChar(n)]
    else
      var r := ShowNat(n / 10) + [DigitChar(n % 10)];
      assert r[..|r| - 1] == ShowNat(n / 10);
      r
  }

  /** Python's `f"{n:02d}"`: the digits of `n`, zero-padded to width two. */
  function Pad2(n: nat): (r: string)
    ensures |r| >= 2 && IsDigits(r)
    ensures DigitsValue(r) == n
    ensures n < 100 ==> |r| == 2
  {
    if n < 10 then
      var r := ['0', DigitChar(n)];
      assert r[..1] == ['0'] && ['0'][..0] == [];
      r
    else ShowNat(n)
  }

  /** `int(str(n)) == n`, and `int` also reads the zero-padded form back. */
  lemma ParseShown(n: nat)
    ensures ParseInt(ShowNat(n)) == Some(n)
    ensures ParseInt(Pad2(n)) == Some(n)
  {
  }

  /** A sign in front of the digits of `n`: `int("-n") == -n` and
      `int("+n") == n`. */
  lemma ParseSigned(n: nat)
    ensures ParseInt(['-'] + ShowNat(n)) == Some(-(n as int))
    ensures ParseInt(['+'] + ShowNat(n)) == Some(n)
  {
    assert (['-'] + ShowNat(n))[1..] == ShowNat(n);
    assert (['+'] + ShowNat(n))[1..] == ShowNat(n);
  }
}

=== FILE: time.dfy ===
/** The `Time` class: a 12-hour clock text "H:MM AM|PM" read into hour,
    minute and meridiem, converted to a minute of the day, and the reverse
    rendering of a stored minute of the day. */
module Time {
  import opened Wrappers
  import opened Text

  /** The three values `_parse_time` returns. Nothing bounds the hour or the
      minute, and the meridiem is whatever the second token is. */
  datatype Clock = Clock(hours: int, minutes: int, sign: string)

  /** The two ways reading a clock text raises: `IndexError` when a needed
      whitespace-separated token is missing, `ValueError` when the first
      token is not exactly two integer fields around a colon. */
  datatype TimeError = MissingToken | NotHourMinute

  /** A clock a person would write: hour 1..12, minute 0..59, AM or PM. */
  predicate IsClock(c: Clock) {
    && 1 <= c.hours <= 12
    && 0 <= c.minutes <= 59
    && (c.sign == "AM" || c.sign == "PM")
  }

  /** `map(int, token.split(":"))` unpacked into exactly two values. */
  function HourMinute(token: string): Option<(int, int)> {
    var f := Fields(token, {':'});
    if |f| == 2 && ParseInt(f[0]).Some? && ParseInt(f[1]).Some? then
      Some((ParseInt(f[0]).value, ParseInt(f[1]).value))
    else None
  }

  /** `Time._parse_time`: the hour and minute come from the first token,
      the meridiem is the second token, any further tokens are ignored. */
  function ParseTime(text: string): (r: Result<Clock, TimeError>)
    ensures r.Ok? <==> |Words(text)| >= 2 && HourMinute(Words(text)[0]).Some?
    ensures r.Ok? ==> HourMinute(Words(text)[0]) == Some((r.value.hours, r.value.minutes))
    ensures r.Ok? ==> r.value.sign == Words(text)[1]
    ensures r.Ok? ==> r.value.sign != [] && Free(r.value.sign, Whitespace)
    ensures |Words(text)| == 0 ==> r == Err(MissingToken)
    ensures r.Err? && |Words(text)| >= 1 ==>
              (r.error == NotHourMinute <==> HourMinute(Words(text)[0]).None?)
  {
    var words := Words(text);
    if |words| == 0 then Err(MissingToken)
    else
      match HourMinute(words[0])
      case None => Err(NotHourMinute)
      case Some((h, m)) =>
        if |words| < 2 then Err(MissingToken) else Ok(Clock(h, m, words[1]))
  }

  /** `_convert_to_24_hour_format`. An unknown meridiem leaves the hour as
      it is, and so does AM with any hour but 12: nothing checks the range. */
  function To24(c: Clock): (h: int)
    ensures IsClock(c) ==> 0 <= h < 24
    ensures IsClock(c) ==> h % 12 == c.hours % 12
    ensures IsClock(c) ==> (h >= 12 <==> c.sign == "PM")
    ensures c.sign != "AM" && c.sign != "PM" ==> h == c.hours
    ensures c.sign == "AM" && c.hours != 12 ==> h == c.hours
  {
    if c.sign == "PM" && c.hours != 12 then c.hours + 12
    else if c.sign == "AM" && c.hours == 12 then 0
    else c.hours
  }

  /** `Time.realtime`: the minute of the day, `hours24 * 60 + minutes`. */
  function Realtime(c: Clock): (t: int)
    ensures 0 <= c.minutes < 60 ==> t / 60 == To24(c) && t % 60 == c.minutes
  {
    To24(c) * 60 + c.minutes
  }

  /** `Time(text).realtime`, the value `create_task` stores. */
  function Encode(text: string): (r: Result<int, TimeError>)
    ensures r.Err? <==> ParseTime(text).Err?
    ensures r.Err? ==> r.error == ParseTime(text).error
    ensures r.Ok? && IsClock(ParseTime(text).value) ==>
              0 <= r.value < 1440 && DecodeParts(r.value) == ParseTime(text).value
  {
    match ParseTime(text)
    case Err(e) => Err(e)
    case Ok(c) => Ok(Realtime(c))
  }

  /** The clock `Time.decode` renders for a stored minute of the day, with
      Python's floor `//` and `%` (Dafny's `/` and `%` agree with them for a
      positive divisor), so it is defined for every integer. */
  function DecodeParts(t: int): (c: Clock)
    ensures IsClock(c)
    ensures c.sign == "PM" <==> t >= 720
    ensures 0 <= t < 1440 ==> Realtime(c) == t
  {
    var h := (t / 60) % 12;
    Clock(if h == 0 then 12 else h, t % 60, if t >= 720 then "PM" else "AM")
  }

  /** `Time.decode`: `f"{hours}:{minutes:02d} {sign}"`. Its two tokens are
      the unpadded hour with the minute padded to two digits, and the
      meridiem; reading it back gives the decoded clock. */
  function Decode(t: int): (r: string)
    ensures var c := DecodeParts(t);
      Words(r) == [ShowNat(c.hours) + ":" + Pad2(c.minutes), c.sign]
    ensures ParseTime(r) == Ok(DecodeParts(t))
  {
    var c := DecodeParts(t);
    DigitsFree(ShowNat(c.hours));
    DigitsFree(Pad2(c.minutes));
    MeridiemsAreWords();
    TokenWords(ShowNat(c.hours), Pad2(c.minutes), c.sign);
    ParseRendered(c.hours, c.minutes, c.sign);
    ShowNat(c.hours) + ":" + Pad2(c.minutes) + " " + c.sign
  }

  /** "H:MM" written from two whitespace-free fields, a space and a
      meridiem is exactly two whitespace tokens: "H:MM" and the meridiem. */
  lemma TokenWords(hs: string, ms: string, sign: string)
    requires Free(hs, Whitespace) && Free(ms, Whitespace)
    requires sign != [] && Free(sign, Whitespace)
    ensures Words(hs + ":" + ms + " " + sign) == [hs + ":" + ms, sign]
  {
    var token := hs + ":" + ms;
    TokenFree(hs, ms);
    WordsAround(token, ' ', sign);
    WordsOfWord(token);
    WordsOfWord(sign);
  }

  lemma TokenFree(hs: string, ms: string)
    requires Free(hs, Whitespace) && Free(ms, Whitespace)
    ensures Free(hs + ":" + ms, Whitespace)
  {
    var token := hs + ":" + ms;
    assert ':' !in Whitespace;
    forall k | 0 <= k < |token| ensures token[k] !in Whitespace {
      if k < |hs| {
        assert token[k] == hs[k];
      } else if k > |hs| {
        assert token[k] == ms[k - |hs| - 1];
      }
    }
  }

  /** `map(int, token.split(":"))` on two colon-free fields around one
      colon: both fields must read as integers, and then they are the hour
      and the minute. */
  lemma HourMinuteOf(hs: string, ms: string)
    requires Free(hs, {':'}) && Free(ms, {':'})
    ensures HourMinute(hs + ":" + ms) ==
      if ParseInt(hs).Some? && ParseInt(ms).Some? then Some((ParseInt(hs).value, ParseInt(ms).value))
      else None
  {
    FieldsAround(hs, ':', ms, {':'});
    FieldsOfFree(hs, {':'});
    FieldsOfFree(ms, {':'});
  }

  /** Reading "H:MM M" for fields without whitespace or colons: the result
      is decided by whether both fields are integers. */
  lemma ParseToken(hs: string, ms: string, sign: string)
    requires Free(hs, Whitespace) && Free(ms, Whitespace)
    requires Free(hs, {':'}) && Free(ms, {':'})
    requires sign != [] && Free(sign, Whitespace)
    ensures ParseTime(hs + ":" + ms + " " + sign) ==
      if ParseInt(hs).Some? && ParseInt(ms).Some? then
        Ok(Clock(ParseInt(hs).value, ParseInt(ms).value, sign))
      else Err(NotHourMinute)
  {
    TokenWords(hs, ms, sign);
    HourMinuteOf(hs, ms);
  }

  /** Any digit strings around the colon, leading zeros included ("09:30"),
      read as their decimal values. */
  lemma ParseDigits(hs: string, ms: string, sign: string)
    requires |hs| >= 1 && IsDigits(hs) && |ms| >= 1 && IsDigits(ms)
    requires sign != [] && Free(sign, Whitespace)
    ensures ParseTime(hs + ":" + ms + " " + sign) == Ok(Clock(DigitsValue(hs), DigitsValue(ms), sign))
  {
    DigitsFree(hs);
    DigitsFree(ms);
    ParseIntCases(hs);
    ParseIntCases(ms);
    ParseToken(hs, ms, sign);
  }

  /** Reading a rendered clock gives back its hour, minute and meridiem. */
  lemma ParseRendered(h: nat, m: nat, sign: string)
    requires sign != [] && Free(sign, Whitespace)
    ensures ParseTime(ShowNat(h) + ":" + Pad2(m) + " " + sign) == Ok(Clock(h, m, sign))
  {
    ParseDigits(ShowNat(h), Pad2(m), sign);
  }

  /** `Time(text).realtime` for a text written as `"{h}:{m:02d} {sign}"`. */
  lemma EncodeRendered(h: nat, m: nat, sign: string, text: string)
    requires sign != [] && Free(sign, Whitespace)
    requires text == ShowNat(h) + ":" + Pad2(m) + " " + sign
    ensures Encode(text) == Ok(Realtime(Clock(h, m, sign)))
  {
    ParseRendered(h, m, sign);
  }

  /** PM adds twelve hours to what AM gives, for every hour, in range or not. */
  lemma PmIsAmPlusTwelve(c: Clock)
    ensures To24(c.(sign := "PM")) == To24(c.(sign := "AM")) + 12
  {
  }

  /** The minute field is added as it is, in range or not: moving it by `k`
      moves the minute of the day by `k`. */
  lemma RealtimeShiftsWithMinutes(c: Clock, k: int)
    ensures Realtime(c.(minutes := c.minutes + k)) == Realtime(c) + k
  {
  }

  /** Every hand-written clock is one minute of the day, and decoding that
      minute gives the same clock back. */
  lemma ClockRoundTrip(c: Clock)
    requires IsClock(c)
    ensures 0 <= Realtime(c) < 1440
    ensures DecodeParts(Realtime(c)) == c
  {
  }

  /** Reading what `decode` printed gives back the stored minute. */
  lemma DecodeRoundTrip(t: int)
    requires 0 <= t < 1440
    ensures ParseTime(Decode(t)) == Ok(DecodeParts(t))
    ensures Encode(Decode(t)) == Ok(t)
  {
    var c := DecodeParts(t);
    ParseRendered(c.hours, c.minutes, c.sign);
  }

  /** Tokens after the meridiem are ignored. */
  lemma ParseIgnoresExtraTokens(text: string, c: char, rest: string)
    requires c in Whitespace
    requires |Words(text)| >= 2
    ensures ParseTime(text + [c] + rest) == ParseTime(text)
  {
    WordsAround(text, c, rest);
  }

  lemma SmallNumerals()
    ensures ShowNat(12) == "12" && ShowNat(11) == "11" && ShowNat(1) == "1"
    ensures Pad2(0) == "00" && Pad2(59) == "59" && Pad2(5) == "05"
  {
  }

  lemma MeridiemsAreWords()
    ensures Free("AM", Whitespace) && Free("PM", Whitespace)
  {
  }

  /* Worked instances of reading a clock: the usual boundaries, and hours
     that no range check rejects. Each takes the text as a parameter fixed by
     its precondition: with the literal written into the postcondition the
     verifier unfolds the splitting functions on it without a bound, whereas
     here the body first rewrites the text into rendered parts. */

  lemma EncodeMidnight(text: string)
    requires text == "12:00 AM"
    ensures Encode(text) == Ok(0)
  {
    MeridiemsAreWords();
    assert text == ShowNat(12) + ":" + Pad2(0) + " " + "AM" by {
      SmallNumerals();
    }
    EncodeRendered(12, 0, "AM", text);
  }

  lemma EncodeNoon(text: string)
    requires text == "12:00 PM"
    ensures Encode(text) == Ok(720)
  {
    MeridiemsAreWords();
    assert text == ShowNat(12) + ":" + Pad2(0) + " " + "PM" by {
      SmallNumerals();
    }
    EncodeRendered(12, 0, "PM", text);
  }

  lemma EncodeMorning(text: string)
    requires text == "1:05 AM"
    ensures Encode(text) == Ok(65)
  {
    MeridiemsAreWords();
    assert text == ShowNat(1) + ":" + Pad2(5) + " " + "AM" by {
      SmallNumerals();
    }
    EncodeRendered(1, 5, "AM", text);
  }

  lemma EncodeLastMinute(text: string)
    requires text == "11:59 PM"
    ensures Encode(text) == Ok(1439)
  {
    MeridiemsAreWords();
    assert text == ShowNat(11) + ":" + Pad2(59) + " " + "PM" by {
      SmallNumerals();
    }
    EncodeRendered(11, 59, "PM", text);
  }

  lemma EncodeUncheckedHour(text: string)
    requires text == "25:00 AM"
    ensures Encode(text) == Ok(1500)
  {
    MeridiemsAreWords();
    assert text == ShowNat(25) + ":" + Pad2(0) + " " + "AM" by {
      assert ShowNat(25) == "25" by {
        assert DigitChar(2) == '2' && DigitChar(5) == '5';
      }
      SmallNumerals();
    }
    EncodeRendered(25, 0, "AM", text);
  }

  /** The zero-padded "HH:MM" form the program asks the user for. */
  lemma EncodeEvening(text: string)
    requires text == "09:30 PM"
    ensures Encode(text) == Ok(1290)
  {
    var hs, ms, sign := "09", "30", "PM";
    MeridiemsAreWords();
    ParseDigits(hs, ms, sign);
    assert hs + ":" + ms + " " + sign == text;
  }

  /** `int` accepts a sign, so "-1:00 AM" is hour -1 and reads as minute -60. */
  lemma EncodeNegativeHour(text: string)
    requires text == "-1:00 AM"
    ensures Encode(text) == Ok(-60)
  {
    var hs, ms := ['-'] + ShowNat(1), Pad2(0);
    MeridiemsAreWords();
    SignedFree(ShowNat(1));
    DigitsFree(ms);
    ParseSigned(1);
    ParseShown(0);
    ParseToken(hs, ms, "AM");
    assert ShowNat(1) == "1" && ms == "00" by {
      assert DigitChar(1) == '1' && DigitChar(0) == '0';
    }
    assert hs + ":" + ms + " " + "AM" == text;
  }

  /** A clock without its meridiem token raises `IndexError`. */
  lemma EncodeMissingMeridiem(text: string)
    requires text == "9:00"
    ensures Encode(text) == Err(MissingToken)
  {
    var hs, ms := ShowNat(9), Pad2(0);
    DigitsFree(hs);
    DigitsFree(ms);
    TokenFree(hs, ms);
    WordsOfWord(hs + ":" + ms);
    ParseShown(9);
    ParseShown(0);
    HourMinuteOf(hs, ms);
    assert hs == "9" && ms == "00" by {
      assert DigitChar(9) == '9' && DigitChar(0) == '0';
    }
    assert hs + ":" + ms == text;
  }

  /** A word that is not two colon-separated integers raises `ValueError`. */
  lemma EncodeNotAClock(text: string)
    requires text == "noon"
    ensures Encode(text) == Err(NotHourMinute)
  {
  }

  lemma DecodeMidnight(t: int)
    requires t == 0
    ensures Decode(t) == "12:00 AM"
  {
    SmallNumerals();
    assert DecodeParts(t) == Clock(12, 0, "AM");
    assert "12" + ":" + "00" + " " + "AM" == "12:00 AM";
  }

  lemma DecodeBeforeNoon(t: int)
    requires t == 719
    ensures Decode(t) == "11:59 AM"
  {
    SmallNumerals();
    assert DecodeParts(t) == Clock(11, 59, "AM");
    assert "11" + ":" + "59" + " " + "AM" == "11:59 AM";
  }

  lemma DecodeNoon(t: int)
    requires t == 720
    ensures Decode(t) == "12:00 PM"
  {
    SmallNumerals();
    assert DecodeParts(t) == Clock(12, 0, "PM");
    assert "12" + ":" + "00" + " " + "PM" == "12:00 PM";
  }

  lemma DecodeLastMinute(t: int)
    requires t == 1439
    ensures Decode(t) == "11:59 PM"
  {
    SmallNumerals();
    assert DecodeParts(t) == Clock(11, 59, "PM");
    assert "11" + ":" + "59" + " " + "PM" == "11:59 PM";
  }
}

=== FILE: wrappers.dfy ===
/** Option and Result, the two failure-carrying shapes the model needs:
    a lookup that may find nothing, and a computation that may raise. */
module Wrappers {

  datatype Option<+T> = None | Some(value: T)

  datatype Result<+T, +E> = Ok(value: T) | Err(error: E)
}
